=== FILE: README.md ===
# India Seva Portal — a Dafny model of the report and dashboard logic

The India Seva Portal is a client-side single-page app. A citizen picks a
government department, uploads images (each gets a placeholder "AI
detection" label), fills in an issue form and submits it. The issue then
appears on an in-memory dashboard. This project models the logic beneath
the markup as pure transitions over immutable records and sequences, and
proves what that logic guarantees.

- `department_tabs.dfy` (`DepartmentTabs`): the eight-entry department
  catalog, the "is selected" test of each tab, and tab clicks.
- `image_upload.dfy` (`ImageUpload`): the `image/` MIME filter; one canned
  label per accepted file, drawn from six fixed strings; the two
  position-aligned lists of images and labels; remove-at-index. The list
  handed to the parent's `onImagesChange` is modelled too.
- `issue_id.dfy` (`IssueId`): the id `"JH"` + the last six characters of
  the decimal millisecond clock, with its length and collision behaviour.
- `issue_form.dfy` (`IssueForm`): the draft record, `handleInputChange`,
  the urgency buttons, the submit-enabled guard and the assembly of the
  issue record.
- `dashboard.dfy` (`Dashboard`): per-status counts, the five-issue
  preview, the empty-state branch, urgency colours and status badges.
- `portal.dfy` (`Portal`): the page state of `pages/Index.tsx`, which is
  the view mode, department, images and issue store. Together with the
  report subtree's component state this forms one sequential state
  machine (`Step`, `Run`), with its invariant and store lemmas.
- `js.dfy` (`Js`): JavaScript's `slice`, with relative and clamped
  indices, and a `Min` helper used to state its results.

Inputs that are not deterministic become parameters:
- The clock is `now: nat` for `Date.now()`.
- The ISO timestamp string is an opaque `timestamp`.
- Each random label choice is a `Draw`, an index below 6, supplied per
  accepted file.

The report subtree (DepartmentTabs, ImageUpload, IssueForm) is rendered
only in the report view. Its local state is therefore modelled as a pane
that exists only in that view: leaving the view discards it, and entering
the view mounts a fresh one. The page's own `uploadedImages` is not reset
when the view changes. So after a round trip to the dashboard, the page can
hold images the upload panel no longer shows. A later submit attaches
them. `Portal.ImagesOutliveReportPane` states this.

## Model

| member | source | states |
|---|---|---|
| `DepartmentTabs.Departments` | src/components/DepartmentTabs.tsx:14-23 | the catalog as rendered: eight departments in a fixed order, with pairwise distinct ids |
| `DepartmentTabs.IsSelected` | src/components/DepartmentTabs.tsx:37 | a tab is highlighted when the selected value equals its id; SelectionIsUnique states what that implies |
| `DepartmentTabs.CatalogShape` | src/components/DepartmentTabs.tsx:15 | the default and reset department "transport" is a catalog id |
| `DepartmentTabs.SelectionIsUnique` | src/components/DepartmentTabs.tsx:35-37 | for any selected value at most one tab is highlighted, and exactly one iff the value is a catalog id |
| `DepartmentTabs.ClickTab` | src/components/DepartmentTabs.tsx:48 | clicking a tab reports a catalog id that makes that tab, and no other, the selected one |
| `ImageUpload.IsImage` | src/components/ImageUpload.tsx:31 | the `startsWith('image/')` test; Accepted, Rejected and MixedBatch state its use |
| `ImageUpload.Accepted` | src/components/ImageUpload.tsx:31 | accepted files all have an `image/` type and come from the batch; every image in the batch is accepted |
| `ImageUpload.Rejected` | src/components/ImageUpload.tsx:31 | dropped files are exactly the non-images of the batch |
| `ImageUpload.PartitionCandidates` | src/components/ImageUpload.tsx:31 | accepted and dropped files partition the batch as multisets, so their counts add up to the batch size |
| `ImageUpload.AcceptedOfConcat` | src/components/ImageUpload.tsx:31 | the filter distributes over concatenation, so accepted files keep their original relative order |
| `ImageUpload.AcceptedExtremes` | src/components/ImageUpload.tsx:31 | a batch without images yields nothing, and a batch of images only is kept whole |
| `ImageUpload.AcceptedNone` | src/components/ImageUpload.tsx:31 | when no candidate is an image, the filter keeps nothing |
| `ImageUpload.AcceptedAll` | src/components/ImageUpload.tsx:31 | when every candidate is an image, the filter keeps the batch unchanged |
| `ImageUpload.HandleFiles` | src/components/ImageUpload.tsx:15-39 | the new image list is the old one followed by the accepted files; one label is appended per accepted file, each one of the six canned strings, with old labels unchanged; alignment is preserved; the parent receives exactly the new list |
| `ImageUpload.HandleFilesPairs` | src/components/ImageUpload.tsx:26-37 | existing image/label pairs keep their positions, and each accepted file is paired with a canned label |
| `ImageUpload.HandleFilesWithoutImages` | src/components/ImageUpload.tsx:31-38 | a batch with no image file leaves both lists unchanged |
| `ImageUpload.Without` | src/components/ImageUpload.tsx:58-59 | filtering out position `i` removes exactly that element for an in-range `i` and changes nothing otherwise |
| `ImageUpload.RemoveImage` | src/components/ImageUpload.tsx:57-63 | removal keeps the lists aligned, removes the same pair from both, is the identity for an out-of-range index, and hands the new list to the parent |
| `ImageUpload.RemoveImageShifts` | src/components/ImageUpload.tsx:57-59 | entries before the removed index keep their index; later ones move down by one, each image still with its own label |
| `ImageUpload.MixedBatch` | src/components/ImageUpload.tsx:17-38 | two images and a `text/plain` file: two accepted, one dropped, two labels added |
| `IssueForm.InitialDraftShape` | src/components/IssueForm.tsx:15-21 | the draft starts with empty text fields and urgency "medium" |
| `IssueForm.HandleInputChange` | src/components/IssueForm.tsx:38-40 | the named field gets the value and every other field is unchanged |
| `IssueForm.PickUrgency` | src/components/IssueForm.tsx:103-117 | an urgency button leaves the urgency in {low, medium, high} and changes no other field |
| `IssueForm.LevelValues` | src/components/IssueForm.tsx:103-107 | the button values are exactly the three valid urgencies |
| `IssueForm.SubmitEnabled` | src/components/IssueForm.tsx:147 | the negation of the `disabled` expression; SubmitEnabledIff states what it depends on |
| `IssueForm.SubmitEnabledIff` | src/components/IssueForm.tsx:147 | submit is enabled iff title, description and location are all non-empty; phone and urgency do not matter; the initial draft cannot be submitted |
| `IssueForm.Assemble` | src/components/IssueForm.tsx:23-35 | the issue carries the draft unchanged (the draft can be read back from it), the selected department, the uploaded images, the timestamp, status "submitted" and the clock-derived id |
| `IssueForm.AssembledIdsCollide` | src/components/IssueForm.tsx:32 | two submits whose clocks agree modulo 10^6 get the same id, whatever else differs |
| `IssueId.Decimal` | src/components/IssueForm.tsx:32 | the clock's decimal string is non-empty, all digits, without a leading zero |
| `IssueId.DecimalRoundTrip` | src/components/IssueForm.tsx:32 | reading the decimal string back yields the clock value |
| `IssueId.IssueId` | src/components/IssueForm.tsx:32 | the id is "JH" followed by the last min(6, length) characters of the decimal clock |
| `IssueId.IdLength` | src/components/IssueForm.tsx:32 | clocks of six or more digits give ids of exactly eight characters |
| `IssueId.ShortTimestampId` | src/components/IssueForm.tsx:32 | below six digits the whole decimal string is kept |
| `IssueId.IdCollision` | src/components/IssueForm.tsx:32 | for clocks of six or more digits, ids are equal iff the clocks agree modulo 10^6 |
| `Js.SlicePrefix` | src/components/Dashboard.tsx:110 | `slice(0, k)` is the first min(k, length) elements |
| `Js.SliceSuffix` | src/components/IssueForm.tsx:32 | `slice(-k)` is the last min(k, length) elements |
| `Dashboard.CountStatus` | src/components/Dashboard.tsx:29-31 | a status count is at most the store size, and zero iff no issue has that status |
| `Dashboard.CountIsMultiplicity` | src/components/Dashboard.tsx:29-31 | a status count is the multiplicity of that status among the issues |
| `Dashboard.CountsCoverStore` | src/components/Dashboard.tsx:29-37 | when every status is one of the three declared ones, the three counts sum to the store size |
| `Dashboard.ComputeStats` | src/components/Dashboard.tsx:28-39 | total is the store size; each count is the multiplicity of its status and at most the total; the counts sum to the total when all statuses are declared ones |
| `Dashboard.AllSubmittedStats` | src/components/Dashboard.tsx:29-34 | a store of submitted issues shows total == submitted == size and zero in the other columns |
| `Dashboard.Preview` | src/components/Dashboard.tsx:110 | the preview is the first min(5, size) issues in store order, and empty iff the store is |
| `Dashboard.EmptyStateIffNoPreview` | src/components/Dashboard.tsx:102-110 | the empty-state branch is taken iff the preview is empty |
| `Dashboard.UrgencyColor` | src/components/Dashboard.tsx:54-61 | the function is total and always returns one of the four colour classes; UrgencyColorMatchesForm states which level gets which |
| `Dashboard.UrgencyColorMatchesForm` | src/components/Dashboard.tsx:54-61 | an urgency is drawn gray iff it is not low, medium or high; each level gets the colour of its form button |
| `Dashboard.StatusBadge` | src/components/Dashboard.tsx:41-52 | known statuses get a styled badge labelled like the statistics card that counts them ("Submitted", "In Progress", "Completed"); any other status falls back to a badge showing the raw string |
| `Dashboard.StatusBadgeInjective` | src/components/Dashboard.tsx:41-52 | different statuses never render the same badge |
| `Portal.Record` | src/pages/Index.tsx:33-38 | the store grows by exactly one, in front; old issues follow in their order; the new issue is the incoming one with status forced to "submitted" |
| `Portal.HandleIssueSubmit` | src/pages/Index.tsx:32-43 | after a submit the store is prepended, images are empty, the department is "transport" and the view is the dashboard |
| `Portal.Navigate` | src/pages/Index.tsx:58-110 | the navigation buttons leave department, images and store untouched; they set the view, unmount the report subtree when leaving it and mount a fresh one when entering |
| `Portal.Step` | src/pages/Index.tsx:58-110 | one interaction: report-view controls do nothing while that view is not rendered; only a firing submit changes the store or, besides navigation, the view; StepPreservesInv and StepStore state the rest |
| `Portal.Run` | src/pages/Index.tsx:26-110 | a sequence of interactions from a state, applied in order; RunPreservesInv and RunStore state what it keeps |
| `Portal.SubmitEffect` | src/pages/Index.tsx:32-43 | an enabled submit stores an issue carrying the draft, the page's department and images and status "submitted", then resets the page; a disabled submit changes nothing |
| `Portal.InitInv` | src/pages/Index.tsx:26-29 | the app starts on the dashboard, with department "transport", no images and an empty store, and satisfies the invariant |
| `Portal.StepPreservesInv` | src/pages/Index.tsx:26-110 | every interaction preserves the invariant: pane mounted iff report view, aligned lists, valid urgency, catalog department, well-formed stored issues |
| `Portal.RunPreservesInv` | src/pages/Index.tsx:26-110 | the invariant holds after any sequence of interactions |
| `Portal.Submitted` | src/pages/Index.tsx:33-38 | one event stores at most one issue, and it has status "submitted" |
| `Portal.StepStore` | src/pages/Index.tsx:38 | only a firing submit changes the store, and only by prepending |
| `Portal.Submissions` | src/pages/Index.tsx:33-38 | every issue a run submits has status "submitted" |
| `Portal.RunStore` | src/pages/Index.tsx:38 | after any run the store is the run's submissions, newest first, in front of the old store |
| `Portal.DashboardAfterRun` | src/pages/Index.tsx:33-38 | after N submissions from the start the dashboard shows total == submitted == N and previews the last min(5, N) submissions, newest first |
| `Portal.ImagesOutliveReportPane` | src/pages/Index.tsx:79-110 | after upload, dashboard and back, the upload panel is empty but the page still holds the image, and the next submit attaches it |
| `Portal.StreetlightScenario` | src/pages/Index.tsx:32-43 | reporting "Broken streetlight" for power at "MG Road", high urgency, no images: one submitted issue with those fields, and stats (1, 1, 0, 0) |

## Left out

- Markup, CSS classes, icons and `Header.tsx` are not modelled: they are presentation only. The exception is the urgency button colours, which a property compares. The department records keep their `color` string as data; the tabs never render it (src/components/DepartmentTabs.tsx:35-56).
- DOM and event plumbing is not modelled. This covers drag-active state, `preventDefault`, the hidden file input's `click()`, the camera `alert` and the success toast. The guards of `handleDrop` and `handleFileInput` are kept as "an empty selection does nothing".
- Random label choice: `Math.random` is replaced by a `Draw` index per accepted file. No distribution is modelled.
- Wall clock: `Date.now()` is a `nat` parameter. `toISOString` and `toLocaleDateString` are an opaque string that is carried but not interpreted.
- File objects: only the MIME type is kept. Name and size display are not modelled; the size display is float formatting. No size limit is modelled, because no code enforces the advertised 10MB cap.
- React scheduling is not modelled: asynchronous `setState` batching, and `handleFiles` reading `uploadedImages` from its closure while the labels use a functional update. Each handler is one atomic transition. Component lifetime is modelled, but only as "the report subtree exists only in the report view".
- React list keys (`key={issue.id}`) are not modelled. Colliding ids, as `IssueId.IdCollision` allows, would only affect rendering.
- `ImageUpload.Rejected` is a model-side complement used to state the partition. `handleFiles` (src/components/ImageUpload.tsx:31) keeps only the accepted files and drops the rest silently, so the code has no rejected list.
- `handleIssueSubmit` receives the record as `any` (src/pages/Index.tsx:32), so the model keeps urgency and department as strings. `Portal.StepPreservesInv` and `Portal.RunPreservesInv` prove, through `Portal.WellFormedIssue`, that every stored issue nevertheless has a valid urgency and a catalog department.

=== FILE: dashboard.dfy ===
/** Dashboard: per-status counts over the store, the five-issue preview and
    the two display mappings. */
module Dashboard {
  import Js
  import IssueForm

  type Issue = IssueForm.Issue

  datatype Stats = Stats(total: nat, submitted: nat, inProgress: nat, completed: nat)

  predicate KnownStatus(s: string) {
    s == "submitted" || s == "in-progress" || s == "completed"
  }

  /** `issues.filter(issue => issue.status === status).length` */
  function CountStatus(issues: seq<Issue>, status: string): (n: nat)
    ensures n <= |issues|
    ensures n == 0 <==> forall k :: 0 <= k < |issues| ==> issues[k].status != status
  {
    if issues == [] then 0
    else (if issues[0].status == status then 1 else 0) + CountStatus(issues[1..], status)
  }

  function Statuses(issues: seq<Issue>): seq<string> {
    seq(|issues|, k requires 0 <= k < |issues| => issues[k].status)
  }

  /** The filtered count is the multiplicity of the status in the store. */
  lemma {:induction false} CountIsMultiplicity(issues: seq<Issue>, status: string)
    ensures CountStatus(issues, status) == multiset(Statuses(issues))[status]
  {
    if issues != [] {
      CountIsMultiplicity(issues[1..], status);
      assert Statuses(issues) == [issues[0].status] + Statuses(issues[1..]);
    }
  }

  /** When every status is one of the three declared ones, the three counts
      add up to the store size. */
  lemma {:induction false} CountsCoverStore(issues: seq<Issue>)
    ensures (forall k :: 0 <= k < |issues| ==> KnownStatus(issues[k].status)) ==>
              CountStatus(issues, "submitted") + CountStatus(issues, "in-progress")
              + CountStatus(issues, "completed") == |issues|
  {
    if issues != [] {
      var tail := issues[1..];
      assert forall k :: 0 <= k < |tail| ==> tail[k] == issues[k + 1];
      CountsCoverStore(tail);
    }
  }

  /** The statistics the `useEffect` computes whenever the store changes. */
  function ComputeStats(issues: seq<Issue>): (s: Stats)
    ensures s.total == |issues|
    ensures s.submitted <= s.total && s.inProgress <= s.total && s.completed <= s.total
    ensures (forall k :: 0 <= k < |issues| ==> KnownStatus(issues[k].status)) ==>
              s.submitted + s.inProgress + s.completed == s.total
    ensures s.submitted == multiset(Statuses(issues))["submitted"]
    ensures s.inProgress == multiset(Statuses(issues))["in-progress"]
    ensures s.completed == multiset(Statuses(issues))["completed"]
  {
    CountIsMultiplicity(issues, "submitted");
    CountIsMultiplicity(issues, "in-progress");
    CountIsMultiplicity(issues, "completed");
    CountsCoverStore(issues);
    Stats(|issues|, CountStatus(issues, "submitted"), CountStatus(issues, "in-progress"), CountStatus(issues, "completed"))
  }

  /** A store whose every issue is freshly submitted shows all of them as
      submitted and none in the other two columns. */
  lemma {:induction false} AllSubmittedStats(issues: seq<Issue>)
    requires forall k :: 0 <= k < |issues| ==> issues[k].status == "submitted"
    ensures ComputeStats(issues) == Stats(|issues|, |issues|, 0, 0)
  {
    if issues != [] {
      AllSubmittedStats(issues[1..]);
    }
  }

  /** `issues.slice(0, 5)`: the first five issues, or all of them. */
  function Preview(issues: seq<Issue>): (r: seq<Issue>)
    ensures |r| == Js.Min(5, |issues|)
    ensures r == issues[..|r|]
    ensures r == [] <==> issues == []
  {
    Js.SlicePrefix(issues, 5);
    Js.Slice(issues, 0, 5)
  }

  /** The "No issues reported yet" branch. */
  predicate ShowsEmptyState(issues: seq<Issue>) {
    |issues| == 0
  }

  /** The placeholder is shown exactly when there is nothing to preview. */
  lemma EmptyStateIffNoPreview(issues: seq<Issue>)
    ensures ShowsEmptyState(issues) <==> Preview(issues) == []
  {
  }

  /** `getUrgencyColor` */
  function UrgencyColor(urgency: string): (color: string)
    ensures color in {"bg-red-500", "bg-yellow-500", "bg-green-500", "bg-gray-500"}
  {
    match urgency
    case "high" => "bg-red-500"
    case "medium" => "bg-yellow-500"
    case "low" => "bg-green-500"
    case _ => "bg-gray-500"
  }

  /** Only an urgency outside the three levels is drawn gray, and each level
      is drawn in the colour of its button on the form. */
  lemma UrgencyColorMatchesForm(urgency: string, l: IssueForm.Level)
    ensures UrgencyColor(urgency) == "bg-gray-500" <==> !IssueForm.ValidUrgency(urgency)
    ensures UrgencyColor(l.Value()) == l.ButtonColor()
  {
  }

  /** `getStatusBadge`: a styled badge for a known status, the raw string in
      a secondary badge otherwise. */
  datatype Badge = Styled(styleClass: string, text: string) | Secondary(text: string)

  /** The title of the statistics card that counts a known status. */
  function ColumnTitle(status: string): string
    requires KnownStatus(status)
  {
    match status
    case "submitted" => "Submitted"
    case "in-progress" => "In Progress"
    case _ => "Completed"
  }

  /** A known status is labelled like the statistics card that counts it. */
  function StatusBadge(status: string): (b: Badge)
    ensures b.Styled? <==> KnownStatus(status)
    ensures KnownStatus(status) ==> b.text == ColumnTitle(status)
    ensures b.Secondary? ==> b.text == status
  {
    match status
    case "submitted" => Styled("status-submitted", "Submitted")
    case "in-progress" => Styled("status-progress", "In Progress")
    case "completed" => Styled("status-completed", "Completed")
    case _ => Secondary(status)
  }

  /** Different statuses never render the same badge. */
  lemma StatusBadgeInjective(s1: string, s2: string)
    requires StatusBadge(s1) == StatusBadge(s2)
    ensures s1 == s2
  {
  }
}

=== FILE: department_tabs.dfy ===
/** The department catalog and the tab selection of DepartmentTabs. */
module DepartmentTabs {

  /** A catalog entry; the icon component is presentation and is not kept. */
  datatype Department = Department(id: string, name: string, color: string)

  /** The catalog, in the order the tabs are rendered. */
  function Departments(): (ds: seq<Department>)
    ensures |ds| == 8
    ensures forall i, j :: 0 <= i < j < |ds| ==> ds[i].id != ds[j].id
  {
    [ Department("transport", "Transport", "bg-primary"),
      Department("water", "Water Resources", "bg-blue-500"),
      Department("power", "Power", "bg-yellow-500"),
      Department("environment", "Environment", "bg-accent"),
      Department("urban", "Urban Development", "bg-gray-500"),
      Department("health", "Health", "bg-red-500"),
      Department("education", "Education", "bg-purple-500"),
      Department("police", "Police", "bg-government") ]
  }

  /** The department the portal starts with and returns to after a submit. */
  const DefaultDepartment: string := "transport"

  ghost predicate IsCatalogId(s: string) {
    exists i :: 0 <= i < |Departments()| && Departments()[i].id == s
  }

  /** A tab is highlighted when the selected value equals its id. */
  predicate IsSelected(selected: string, d: Department) {
    selected == d.id
  }

  /** The positions of the tabs that render as selected. */
  function SelectedTabs(selected: string): set<int> {
    set i | 0 <= i < |Departments()| && IsSelected(selected, Departments()[i])
  }

  /** The default department is in the catalog. */
  lemma CatalogShape()
    ensures IsCatalogId(DefaultDepartment)
  {
    assert Departments()[0].id == DefaultDepartment;
  }

  /** At most one tab is highlighted, and exactly one iff the value is a
      catalog id. */
  lemma SelectionIsUnique(selected: string)
    ensures |SelectedTabs(selected)| <= 1
    ensures |SelectedTabs(selected)| == 1 <==> IsCatalogId(selected)
  {
    CatalogShape();
    if IsCatalogId(selected) {
      var k :| 0 <= k < |Departments()| && Departments()[k].id == selected;
      assert SelectedTabs(selected) == {k};
    } else {
      assert SelectedTabs(selected) == {};
    }
  }

  /** Clicking tab `i` reports that tab's own id, which is a catalog id and
      makes tab `i`, and only it, the selected one. */
  function ClickTab(i: nat): (selected: string)
    requires i < |Departments()|
    ensures IsCatalogId(selected)
    ensures SelectedTabs(selected) == {i}
  {
    CatalogShape();
    Departments()[i].id
  }
}

=== FILE: image_upload.dfy ===
/** ImageUpload: the MIME filter, the placeholder detection labels and the
    two position-aligned lists (images, labels) the component keeps. */
module ImageUpload {

  /** A browser file handle; only its declared MIME type is inspected. */
  datatype File = File(mimeType: string)

  const ImagePrefix: string := "image/"

  /** `file.type.startsWith('image/')` */
  predicate IsImage(f: File) {
    |ImagePrefix| <= |f.mimeType| && f.mimeType[..|ImagePrefix|] == ImagePrefix
  }

  /** The candidates kept by the filter, in their original order. */
  function Accepted(files: seq<File>): (r: seq<File>)
    ensures |r| <= |files|
    ensures forall k :: 0 <= k < |r| ==> IsImage(r[k])
    ensures forall f :: f in files && IsImage(f) ==> f in r
    ensures forall f :: f in r ==> f in files
  {
    if files == [] then []
    else (if IsImage(files[0]) then [files[0]] else []) + Accepted(files[1..])
  }

  /** The candidates the filter drops without any feedback. */
  function Rejected(files: seq<File>): (r: seq<File>)
    ensures forall k :: 0 <= k < |r| ==> !IsImage(r[k])
    ensures forall f :: f in files && !IsImage(f) ==> f in r
    ensures forall f :: f in r ==> f in files
  {
    if files == [] then []
    else (if IsImage(files[0]) then [] else [files[0]]) + Rejected(files[1..])
  }

  /** Accepted and rejected candidates partition the batch. */
  lemma {:induction false} PartitionCandidates(files: seq<File>)
    ensures multiset(Accepted(files)) + multiset(Rejected(files)) == multiset(files)
    ensures |Accepted(files)| + |Rejected(files)| == |files|
  {
    if files != [] {
      PartitionCandidates(files[1..]);
      assert files == [files[0]] + files[1..];
    }
  }

  /** The filter works candidate by candidate: it distributes over
      concatenation, so relative order is kept. */
  lemma {:induction false} AcceptedOfConcat(a: seq<File>, b: seq<File>)
    ensures Accepted(a + b) == Accepted(a) + Accepted(b)
  {
    if a == [] {
      assert a + b == b;
    } else {
      assert (a + b)[1..] == a[1..] + b;
      AcceptedOfConcat(a[1..], b);
    }
  }

  /** A batch without images is dropped entirely. */
  lemma {:induction false} AcceptedNone(files: seq<File>)
    requires forall k :: 0 <= k < |files| ==> !IsImage(files[k])
    ensures Accepted(files) == []
  {
    if files != [] {
      var tail := files[1..];
      forall k | 0 <= k < |tail| ensures !IsImage(tail[k]) {
        assert tail[k] == files[k + 1];
      }
      AcceptedNone(tail);
    }
  }

  /** A batch of images only is kept entirely. */
  lemma {:induction false} AcceptedAll(files: seq<File>)
    requires forall k :: 0 <= k < |files| ==> IsImage(files[k])
    ensures Accepted(files) == files
  {
    if files != [] {
      var tail := files[1..];
      forall k | 0 <= k < |tail| ensures IsImage(tail[k]) {
        assert tail[k] == files[k + 1];
      }
      AcceptedAll(tail);
      assert files == [files[0]] + tail;
    }
  }

  /** A batch without images is dropped entirely; a batch of images only is
      kept entirely. */
  lemma AcceptedExtremes(files: seq<File>)
    ensures (forall k :: 0 <= k < |files| ==> !IsImage(files[k])) ==> Accepted(files) == []
    ensures (forall k :: 0 <= k < |files| ==> IsImage(files[k])) ==> Accepted(files) == files
  {
    if forall k :: 0 <= k < |files| ==> !IsImage(files[k]) {
      AcceptedNone(files);
    }
    if forall k :: 0 <= k < |files| ==> IsImage(files[k]) {
      AcceptedAll(files);
    }
  }

  /** The six canned detection labels. */
  const Detections: seq<string> := [
    "Pothole detected",
    "Road damage identified",
    "Broken streetlight found",
    "Garbage accumulation",
    "Water logging",
    "Infrastructure damage"
  ]

  /** One draw of the random label choice: an index into `Detections`. */
  type Draw = k: nat | k < 6

  /** The component's state: the uploaded images and, at the same
      positions, their labels. */
  datatype Intake = Intake(images: seq<File>, labels: seq<string>)

  const Empty: Intake := Intake([], [])

  predicate Aligned(s: Intake) {
    |s.images| == |s.labels|
  }

  /** Image/label pairs as the list renders them. */
  function Pairs(s: Intake): seq<(File, string)>
    requires Aligned(s)
  {
    seq(|s.images|, k requires 0 <= k < |s.images| => (s.images[k], s.labels[k]))
  }

  /** The new state and the image list handed to `onImagesChange`. */
  datatype Change = Change(intake: Intake, emitted: seq<File>)

  /** `handleFiles`: filter the batch, label each accepted file with the
      `k`-th draw, append both. */
  function HandleFiles(s: Intake, files: seq<File>, draw: nat -> Draw): (c: Change)
    ensures c.intake.images == s.images + Accepted(files)
    ensures |c.intake.labels| == |s.labels| + |Accepted(files)|
    ensures c.intake.labels[..|s.labels|] == s.labels
    ensures forall k :: |s.labels| <= k < |c.intake.labels| ==> c.intake.labels[k] in Detections
    ensures c.emitted == c.intake.images
    ensures Aligned(s) ==> Aligned(c.intake)
  {
    var accepted := Accepted(files);
    var labels := seq(|accepted|, (k: nat) => Detections[draw(k)]);
    var next := Intake(s.images + accepted, s.labels + labels);
    Change(next, next.images)
  }

  /** On an aligned state the old pairs keep their positions and each
      accepted file is paired with a canned label. */
  lemma HandleFilesPairs(s: Intake, files: seq<File>, draw: nat -> Draw)
    requires Aligned(s)
    ensures var c := HandleFiles(s, files, draw);
      && Pairs(c.intake)[..|s.images|] == Pairs(s)
      && |Pairs(c.intake)| == |s.images| + |Accepted(files)|
      && forall k :: 0 <= k < |Accepted(files)| ==>
           Pairs(c.intake)[|s.images| + k].0 == Accepted(files)[k] &&
           Pairs(c.intake)[|s.images| + k].1 in Detections
  {
    var c := HandleFiles(s, files, draw);
    assert Aligned(c.intake);
    assert Pairs(c.intake)[..|s.images|] == Pairs(s);
  }

  /** A batch with no image in it leaves both lists as they were. */
  lemma HandleFilesWithoutImages(s: Intake, files: seq<File>, draw: nat -> Draw)
    requires forall k :: 0 <= k < |files| ==> !IsImage(files[k])
    ensures HandleFiles(s, files, draw).intake == s
  {
    AcceptedExtremes(files);
  }

  /** `xs.filter((_, i) => i !== index)`, walking positions from the last
      one back so that the position of the element looked at is fixed. */
  function Without<T>(xs: seq<T>, index: int): (r: seq<T>)
    ensures 0 <= index < |xs| ==> r == xs[..index] + xs[index + 1..]
    ensures !(0 <= index < |xs|) ==> r == xs
  {
    if xs == [] then []
    else
      var last := |xs| - 1;
      var rest := Without(xs[..last], index);
      if last == index then rest else rest + [xs[last]]
  }

  /** `removeImage`: drop position `index` from both lists. */
  function RemoveImage(s: Intake, index: int): (c: Change)
    ensures Aligned(s) ==> Aligned(c.intake)
    ensures Aligned(s) ==> Pairs(c.intake) == Without(Pairs(s), index)
    ensures !(0 <= index < |s.images|) && Aligned(s) ==> c.intake == s
    ensures c.emitted == c.intake.images
  {
    var next := Intake(Without(s.images, index), Without(s.labels, index));
    Change(next, next.images)
  }

  /** Entries before `index` keep their position, entries after it move
      down by one, and each image stays with its own label. */
  lemma RemoveImageShifts(s: Intake, index: int)
    requires Aligned(s) && 0 <= index < |s.images|
    ensures var t := RemoveImage(s, index).intake;
      && |t.images| == |t.labels| == |s.images| - 1
      && (forall k :: 0 <= k < index ==> t.images[k] == s.images[k] && t.labels[k] == s.labels[k])
      && (forall k :: index <= k < |t.images| ==> t.images[k] == s.images[k + 1] && t.labels[k] == s.labels[k + 1])
  {
  }

  /** A batch of two images and one text file: two accepted, one rejected,
      and one label per accepted file. */
  lemma MixedBatch(s: Intake, draw: nat -> Draw)
    ensures var files := [File("image/png"), File("text/plain"), File("image/jpeg")];
      && Accepted(files) == [File("image/png"), File("image/jpeg")]
      && Rejected(files) == [File("text/plain")]
      && |HandleFiles(s, files, draw).intake.labels| == |s.labels| + 2
  {
    var files := [File("image/png"), File("text/plain"), File("image/jpeg")];
    assert files[1].mimeType[..|ImagePrefix|][0] != ImagePrefix[0];
    assert IsImage(files[0]) && !IsImage(files[1]) && IsImage(files[2]);
    assert files[1..][1..] == [files[2]];
  }
}

=== FILE: issue_form.dfy ===
/** IssueForm: the draft record, its field-by-field update, the submit
    guard and the assembly of the issue record handed to the page. */
module IssueForm {
  import ImageUpload
  import IssueId

  /** The form's `formData`. */
  datatype Draft = Draft(
    title: string,
    description: string,
    location: string,
    urgency: string,
    contactPhone: string)

  const InitialDraft: Draft := Draft("", "", "", "medium", "")

  /** The names `handleInputChange` is called with. */
  datatype Field = Title | Description | Location | Urgency | ContactPhone

  function Get(d: Draft, f: Field): string {
    match f
    case Title => d.title
    case Description => d.description
    case Location => d.location
    case Urgency => d.urgency
    case ContactPhone => d.contactPhone
  }

  /** `handleInputChange(field, value)`: field `f` becomes `v`, every other
      field is kept. */
  function HandleInputChange(d: Draft, f: Field, v: string): (d': Draft)
    ensures Get(d', f) == v
    ensures forall g :: g != f ==> Get(d', g) == Get(d, g)
  {
    match f
    case Title => d.(title := v)
    case Description => d.(description := v)
    case Location => d.(location := v)
    case Urgency => d.(urgency := v)
    case ContactPhone => d.(contactPhone := v)
  }

  /** The form opens with empty text fields and medium urgency. */
  lemma InitialDraftShape()
    ensures forall f :: f != Urgency ==> Get(InitialDraft, f) == ""
    ensures Get(InitialDraft, Urgency) == "medium"
  {
  }

  /** The three urgency buttons. */
  datatype Level = Low | Medium | High {
    function Value(): string {
      match this
      case Low => "low"
      case Medium => "medium"
      case High => "high"
    }

    /** The colour dot of the button. */
    function ButtonColor(): string {
      match this
      case Low => "bg-green-500"
      case Medium => "bg-yellow-500"
      case High => "bg-red-500"
    }
  }

  predicate ValidUrgency(u: string) {
    u == "low" || u == "medium" || u == "high"
  }

  /** An urgency button click: the draft's urgency becomes the button's
      value and the other fields are kept. */
  function PickUrgency(d: Draft, l: Level): (d': Draft)
    ensures d'.urgency == l.Value()
    ensures ValidUrgency(d'.urgency)
    ensures d'.(urgency := d.urgency) == d
  {
    HandleInputChange(d, Urgency, l.Value())
  }

  /** The string values of the buttons are exactly the valid urgencies. */
  lemma LevelValues(u: string)
    ensures ValidUrgency(u) <==> exists l: Level :: l.Value() == u
  {
    if u == "low" { assert Low.Value() == u; }
    if u == "medium" { assert Medium.Value() == u; }
    if u == "high" { assert High.Value() == u; }
  }

  /** The submit button is enabled unless title, description or location
      is empty. */
  predicate SubmitEnabled(d: Draft) {
    !(d.title == "" || d.description == "" || d.location == "")
  }

  /** The guard reads only the three required fields. */
  lemma SubmitEnabledIff(d: Draft, phone: string, urgency: string)
    ensures SubmitEnabled(d) <==> |d.title| > 0 && |d.description| > 0 && |d.location| > 0
    ensures SubmitEnabled(d) == SubmitEnabled(d.(contactPhone := phone, urgency := urgency))
    ensures !SubmitEnabled(InitialDraft)
  {
  }

  /** The record `handleSubmit` hands to `onSubmit`. */
  datatype Issue = Issue(
    id: string,
    title: string,
    description: string,
    location: string,
    urgency: string,
    contactPhone: string,
    department: string,
    images: seq<ImageUpload.File>,
    timestamp: string,
    status: string)

  /** The draft fields an issue carries. */
  function DraftOf(i: Issue): Draft {
    Draft(i.title, i.description, i.location, i.urgency, i.contactPhone)
  }

  /** `handleSubmit` with `now` for `Date.now()` and `timestamp` for the ISO
      string of the submit time, read separately from `now`. */
  function Assemble(d: Draft, department: string, images: seq<ImageUpload.File>, now: nat, timestamp: string): (i: Issue)
    ensures DraftOf(i) == d
    ensures i.department == department && i.images == images && i.timestamp == timestamp
    ensures i.status == "submitted"
    ensures i.id == IssueId.IssueId(now) && 3 <= |i.id| <= 8 && i.id[..2] == "JH"
  {
    Issue(IssueId.IssueId(now), d.title, d.description, d.location, d.urgency, d.contactPhone,
          department, images, timestamp, "submitted")
  }

  /** Two submits whose clocks agree modulo 10^6 (with six or more digits)
      produce issues with the same id. */
  lemma AssembledIdsCollide(d1: Draft, d2: Draft, dep1: string, dep2: string,
                            im1: seq<ImageUpload.File>, im2: seq<ImageUpload.File>,
                            n1: nat, n2: nat, ts1: string, ts2: string)
    requires n1 >= 100000 && n2 >= 100000 && n1 % 1000000 == n2 % 1000000
    ensures Assemble(d1, dep1, im1, n1, ts1).id == Assemble(d2, dep2, im2, n2, ts2).id
  {
    IssueId.IdCollision(n1, n2);
  }
}

=== FILE: issue_id.dfy ===
/** The issue id of IssueForm: "JH" followed by the last six characters of
    the decimal millisecond timestamp. */
module IssueId {
  import Js

  function Pow10(k: nat): (p: nat)
    ensures p >= 1
  {
    if k == 0 then 1 else 10 * Pow10(k - 1)
  }

  lemma {:induction false} Pow10Monotone(i: nat, j: nat)
    requires i <= j
    ensures Pow10(i) <= Pow10(j)
  {
    if i < j {
      Pow10Monotone(i, j - 1);
    }
  }

  function Digit(d: nat): char
    requires d < 10
  {
    (48 + d) as char
  }

  function DigitValue(c: char): int {
    c as int - 48
  }

  /** `n.toString()` for a non-negative integer. */
  function Decimal(n: nat): (s: string)
    ensures |s| >= 1
    ensures forall k :: 0 <= k < |s| ==> '0' <= s[k] <= '9'
    ensures |s| > 1 ==> s[0] != '0'
  {
    if n < 10 then [Digit(n)] else Decimal(n / 10) + [Digit(n % 10)]
  }

  /** The number a string of decimal digits denotes. */
  function Value(s: string): int {
    if s == [] then 0 else 10 * Value(s[..|s| - 1]) + DigitValue(s[|s| - 1])
  }

  /** Reading the decimal string back gives the timestamp. */
  lemma {:induction false} DecimalRoundTrip(n: nat)
    ensures Value(Decimal(n)) == n
  {
    if n >= 10 {
      var s := Decimal(n);
      assert s[..|s| - 1] == Decimal(n / 10);
      DecimalRoundTrip(n / 10);
    }
  }

  /** The decimal string has exactly as many digits as the magnitude of `n`
      demands. */
  lemma {:induction false} DecimalLength(n: nat)
    ensures n < Pow10(|Decimal(n)|)
    ensures |Decimal(n)| > 1 ==> Pow10(|Decimal(n)| - 1) <= n
  {
    if n >= 10 {
      DecimalLength(n / 10);
    }
  }

  /** The `k` low-order decimal digits of `n`, zero-padded. */
  function Pad(n: nat, k: nat): (s: string)
    ensures |s| == k
  {
    if k == 0 then [] else Pad(n / 10, k - 1) + [Digit(n % 10)]
  }

  lemma {:induction false} MulMonotone(d: nat, a: nat, b: nat)
    requires a <= b
    ensures d * a <= d * b
  {
    if a < b {
      MulMonotone(d, a, b - 1);
      assert d * b == d * (b - 1) + d;
    }
  }

  /** Euclidean division has one quotient and one remainder. */
  lemma ModUnique(n: nat, d: nat, q: nat, r: nat)
    requires d > 0 && n == d * q + r && r < d
    ensures n % d == r
  {
    var q' := n / d;
    if q' < q {
      MulMonotone(d, q' + 1, q);
    } else if q' > q {
      MulMonotone(d, q + 1, q');
    }
    assert q' == q;
  }

  /** The remainder by `10 * P` splits into the remainder of `n / 10` by
      `P` and the last digit. */
  lemma ModSplit(n: nat, p: nat)
    requires p > 0
    ensures n % (10 * p) == 10 * ((n / 10) % p) + n % 10
  {
    var m := n / 10;
    assert n == 10 * m + n % 10;
    assert m == p * (m / p) + m % p;
    assert n == (10 * p) * (m / p) + (10 * (m % p) + n % 10);
    ModUnique(n, 10 * p, m / p, 10 * (m % p) + n % 10);
  }

  /** Two padded suffixes agree exactly when the numbers agree modulo
      `10^k`. */
  lemma {:induction false} PadEqualIff(n: nat, m: nat, k: nat)
    ensures Pad(n, k) == Pad(m, k) <==> n % Pow10(k) == m % Pow10(k)
  {
    if k > 0 {
      PadEqualIff(n / 10, m / 10, k - 1);
      ModSplit(n, Pow10(k - 1));
      ModSplit(m, Pow10(k - 1));
      var a, b := Pad(n / 10, k - 1), Pad(m / 10, k - 1);
      if Pad(n, k) == Pad(m, k) {
        assert a == Pad(n, k)[..k - 1] && b == Pad(m, k)[..k - 1];
        assert Pad(n, k)[k - 1] == Digit(n % 10) && Pad(m, k)[k - 1] == Digit(m % 10);
      }
    }
  }

  /** The last `k` characters of the decimal string of an `n` with at least
      `k` digits are its `k` low-order digits. */
  lemma {:induction false} DecimalSuffix(n: nat, k: nat)
    requires 1 <= k && Pow10(k - 1) <= n
    ensures k <= |Decimal(n)|
    ensures Decimal(n)[|Decimal(n)| - k..] == Pad(n, k)
  {
    DecimalLength(n);
    if |Decimal(n)| < k {
      Pow10Monotone(|Decimal(n)|, k - 1);
    }
    if n >= 10 && k > 1 {
      var d := Decimal(n / 10);
      DecimalSuffix(n / 10, k - 1);
      assert Decimal(n)[|Decimal(n)| - k..] == d[|d| - (k - 1)..] + [Digit(n % 10)];
    }
  }

  const Width: int := 6

  /** `` `JH${Date.now().toString().slice(-6)}` `` for the clock reading `now`. */
  function IssueId(now: nat): (id: string)
    ensures |id| == 2 + Js.Min(Width, |Decimal(now)|)
    ensures id[..2] == "JH"
    ensures id[2..] == Decimal(now)[|Decimal(now)| - (|id| - 2)..]
  {
    var s := Decimal(now);
    Js.SliceSuffix(s, Width);
    assert Js.SliceFrom(s, -Width) == s[|s| - Js.Min(Width, |s|)..];
    "JH" + Js.SliceFrom(s, -Width)
  }

  /** Timestamps of six or more digits give eight-character ids. */
  lemma IdLength(now: nat)
    requires now >= 100000
    ensures |IssueId(now)| == 8
  {
    assert Pow10(5) == 100000;
    DecimalSuffix(now, Width);
  }

  /** Below six digits the whole timestamp is kept. */
  lemma ShortTimestampId(now: nat)
    requires now < 100000
    ensures IssueId(now) == "JH" + Decimal(now)
  {
    DecimalLength(now);
    if |Decimal(now)| > 5 {
      Pow10Monotone(5, |Decimal(now)| - 1);
    }
  }

  /** Two timestamps of at least six digits get the same id exactly when
      they agree modulo 10^6: ids are not collision-free. */
  lemma IdCollision(n: nat, m: nat)
    requires n >= 100000 && m >= 100000
    ensures IssueId(n) == IssueId(m) <==> n % 1000000 == m % 1000000
  {
    assert Pow10(5) == 100000;
    DecimalSuffix(n, Width);
    DecimalSuffix(m, Width);
    PadEqualIff(n, m, Width);
    assert Pow10(Width) == 1000000;
    assert IssueId(n)[2..] == Pad(n, Width);
    assert IssueId(m)[2..] == Pad(m, Width);
  }
}

=== FILE: js.dfy ===
/** JavaScript's `slice` with its relative, clamped indices (the same rule
    for arrays and strings), and a `Min` helper used to state its results. */
module Js {

  function Min(a: int, b: int): int {
    if a <= b then a else b
  }

  /** A `slice` argument resolved against a length `len`: a negative index
      counts back from the end, and the result is clamped to `[0, len]`. */
  function Resolve(i: int, len: nat): (p: nat)
    ensures p <= len
  {
    if i < 0 then (if len + i < 0 then 0 else len + i)
    else Min(i, len)
  }

  /** `xs.slice(start, end)`: empty when the resolved start is not before the
      resolved end. */
  function Slice<T>(xs: seq<T>, start: int, end: int): (r: seq<T>)
    ensures |r| <= |xs|
  {
    var s := Resolve(start, |xs|);
    var e := Resolve(end, |xs|);
    if s < e then xs[s..e] else []
  }

  /** `xs.slice(start)`, the end defaulting to the length. */
  function SliceFrom<T>(xs: seq<T>, start: int): (r: seq<T>)
    ensures |r| <= |xs|
  {
    Slice(xs, start, |xs|)
  }

  /** `xs.slice(0, k)` for `k >= 0` is the first `min(k, |xs|)` elements. */
  lemma SlicePrefix<T>(xs: seq<T>, k: nat)
    ensures Slice(xs, 0, k) == xs[..Min(k, |xs|)]
  {
  }

  /** `xs.slice(-k)` for `k > 0` is the last `min(k, |xs|)` elements. */
  lemma SliceSuffix<T>(xs: seq<T>, k: int)
    requires k > 0
    ensures SliceFrom(xs, -k) == xs[|xs| - Min(k, |xs|)..]
  {
  }
}

=== FILE: portal.dfy ===
/** The page (pages/Index.tsx): navigation between the dashboard and the
    report view, the issue store and the submit handler, composed with the
    components it renders into one sequential state machine. */
module Portal {
  import Js
  import DepartmentTabs
  import ImageUpload
  import IssueForm
  import Dashboard

  type File = ImageUpload.File
  type Issue = IssueForm.Issue

  datatype ViewMode = DashboardView | ReportView

  /** The local state of the report subtree (ImageUpload and IssueForm).
      It is rendered only in the report view, so it exists only then, and
      every entry into the report view mounts it afresh. */
  datatype ReportPane = Closed | Open(intake: ImageUpload.Intake, draft: IssueForm.Draft)

  /** The page's own state plus the mounted report subtree. */
  datatype App = App(
    view: ViewMode,
    department: string,
    images: seq<File>,
    issues: seq<Issue>,
    pane: ReportPane)

  const Init: App := App(DashboardView, DepartmentTabs.DefaultDepartment, [], [], Closed)

  const FreshPane: ReportPane := Open(ImageUpload.Empty, IssueForm.InitialDraft)

  function Reverse<T>(xs: seq<T>): (r: seq<T>)
    ensures |r| == |xs|
    ensures forall k :: 0 <= k < |xs| ==> r[k] == xs[|xs| - 1 - k]
  {
    if xs == [] then [] else Reverse(xs[1..]) + [xs[0]]
  }

  lemma ReverseConcat<T>(xs: seq<T>, ys: seq<T>)
    ensures Reverse(xs + ys) == Reverse(ys) + Reverse(xs)
  {
  }

  lemma ConcatAssoc<T>(xs: seq<T>, ys: seq<T>, zs: seq<T>)
    ensures xs + (ys + zs) == (xs + ys) + zs
  {
  }

  lemma SingletonReverse<T>(xs: seq<T>)
    requires |xs| <= 1
    ensures Reverse(xs) == xs
  {
  }

  /** The first `k` of the reversed list are the last `k`, reversed. */
  lemma ReversePrefix<T>(xs: seq<T>, k: nat)
    requires k <= |xs|
    ensures Reverse(xs)[..k] == Reverse(xs[|xs| - k..])
  {
    var ys := xs[|xs| - k..];
    var r, q := Reverse(xs), Reverse(ys);
    forall i | 0 <= i < k
      ensures r[i] == q[i]
    {
      assert r[i] == xs[|xs| - 1 - i];
      assert q[i] == ys[k - 1 - i];
    }
    assert r[..k] == q;
  }

  /** The store update of `handleIssueSubmit`: the incoming record, with its
      status forced to "submitted", goes in front of the old store. */
  function Record(store: seq<Issue>, data: Issue): (store': seq<Issue>)
    ensures |store'| == |store| + 1
    ensures store'[1..] == store
    ensures store'[0].status == "submitted"
    ensures store'[0].(status := data.status) == data
  {
    [data.(status := "submitted")] + store
  }

  /** `handleIssueSubmit`: record the issue, then reset the images, the
      department and the view; leaving the report view unmounts the form. */
  function HandleIssueSubmit(a: App, data: Issue): (a': App)
    ensures |a'.issues| == |a.issues| + 1 && a'.issues[1..] == a.issues
    ensures a'.issues[0].status == "submitted"
    ensures a'.issues[0].(status := data.status) == data
    ensures a'.images == [] && a'.department == DepartmentTabs.DefaultDepartment
    ensures a'.view == DashboardView && a'.pane == Closed
  {
    App(DashboardView, DepartmentTabs.DefaultDepartment, [], Record(a.issues, data), Closed)
  }

  /** The two navigation buttons (`setViewMode`). The page's department,
      images and store are untouched; switching to the dashboard unmounts
      the report subtree and switching to the report view mounts a fresh
      one. Re-selecting the current view changes nothing. */
  function Navigate(a: App, mode: ViewMode): (a': App)
    ensures a'.view == mode
    ensures a'.department == a.department && a'.images == a.images && a'.issues == a.issues
    ensures mode == a.view ==> a' == a
    ensures mode != a.view && mode == DashboardView ==> a'.pane == Closed
    ensures mode != a.view && mode == ReportView ==> a'.pane == FreshPane
  {
    if mode == a.view then a
    else a.(view := mode, pane := if mode == ReportView then FreshPane else Closed)
  }

  /** The text inputs of the form; the urgency field is set by buttons. */
  datatype TextInput = TitleInput | DescriptionInput | LocationInput | PhoneInput {
    function Field(): IssueForm.Field {
      match this
      case TitleInput => IssueForm.Title
      case DescriptionInput => IssueForm.Description
      case LocationInput => IssueForm.Location
      case PhoneInput => IssueForm.ContactPhone
    }
  }

  /** One user interaction. Clock readings and random label draws come in
      with the event that consumes them. */
  datatype Event =
    | Show(mode: ViewMode)
    | PickDepartment(tab: int)
    | AddFiles(files: seq<File>, draw: nat -> ImageUpload.Draw)
    | RemoveImage(index: int)
    | Edit(input: TextInput, value: string)
    | PickUrgency(level: IssueForm.Level)
    | Submit(now: nat, timestamp: string)

  /** The issue record `handleSubmit` would send from the current pane. */
  function Outgoing(a: App, now: nat, timestamp: string): Issue
    requires a.pane.Open?
  {
    IssueForm.Assemble(a.pane.draft, a.department, a.images, now, timestamp)
  }

  /** Whether a submit event reaches `handleIssueSubmit`: the form must be
      rendered and its button enabled. */
  predicate SubmitFires(a: App, e: Event) {
    e.Submit? && a.pane.Open? && IssueForm.SubmitEnabled(a.pane.draft)
  }

  /** One atomic transition. Controls of the report view do nothing while it
      is not rendered; a file picker or drop with no files does not call
      `handleFiles`; only rendered remove buttons and tabs can be clicked. */
  function Step(a: App, e: Event): (a': App)
    ensures a.pane.Closed? && !e.Show? ==> a' == a
    ensures !SubmitFires(a, e) ==> a'.issues == a.issues
    ensures !e.Show? && !SubmitFires(a, e) ==> a'.view == a.view
  {
    match e
    case Show(mode) => Navigate(a, mode)
    case PickDepartment(tab) =>
      if a.pane.Open? && 0 <= tab < |DepartmentTabs.Departments()|
      then a.(department := DepartmentTabs.ClickTab(tab)) else a
    case AddFiles(files, draw) =>
      if a.pane.Open? && |files| > 0 then
        var c := ImageUpload.HandleFiles(a.pane.intake, files, draw);
        a.(images := c.emitted, pane := a.pane.(intake := c.intake))
      else a
    case RemoveImage(index) =>
      if a.pane.Open? && 0 <= index < |a.pane.intake.images| then
        var c := ImageUpload.RemoveImage(a.pane.intake, index);
        a.(images := c.emitted, pane := a.pane.(intake := c.intake))
      else a
    case Edit(input, value) =>
      if a.pane.Open?
      then a.(pane := a.pane.(draft := IssueForm.HandleInputChange(a.pane.draft, input.Field(), value)))
      else a
    case PickUrgency(level) =>
      if a.pane.Open?
      then a.(pane := a.pane.(draft := IssueForm.PickUrgency(a.pane.draft, level)))
      else a
    case Submit(now, timestamp) =>
      if SubmitFires(a, e) then HandleIssueSubmit(a, Outgoing(a, now, timestamp)) else a
  }

  function Run(a: App, es: seq<Event>): App
    decreases |es|
  {
    if |es| == 0 then a else Run(Step(a, es[0]), es[1..])
  }

  /** A submit that fires stores the assembled issue in front, carrying the
      draft, the page's department and images and status "submitted", and
      resets the page; a disabled submit changes nothing. */
  lemma SubmitEffect(a: App, now: nat, timestamp: string)
    ensures var b := Step(a, Submit(now, timestamp));
      if a.pane.Open? && IssueForm.SubmitEnabled(a.pane.draft) then
        && |b.issues| == |a.issues| + 1 && b.issues[1..] == a.issues
        && IssueForm.DraftOf(b.issues[0]) == a.pane.draft
        && b.issues[0].department == a.department
        && b.issues[0].images == a.images
        && b.issues[0].status == "submitted"
        && b.images == [] && b.department == DepartmentTabs.DefaultDepartment
        && b.view == DashboardView && b.pane == Closed
      else b == a
  {
  }

  /** An issue as every path into the store leaves it. */
  ghost predicate WellFormedIssue(i: Issue) {
    && i.status == "submitted"
    && IssueForm.ValidUrgency(i.urgency)
    && DepartmentTabs.IsCatalogId(i.department)
    && i.title != "" && i.description != "" && i.location != ""
  }

  /** What every reachable state satisfies: the report subtree is mounted
      exactly in the report view, its two lists are aligned, the draft
      urgency is one of the three levels, the department is a catalog id
      and every stored issue is well formed. */
  ghost predicate Inv(a: App) {
    && (a.view == ReportView <==> a.pane.Open?)
    && DepartmentTabs.IsCatalogId(a.department)
    && (a.pane.Open? ==> ImageUpload.Aligned(a.pane.intake) && IssueForm.ValidUrgency(a.pane.draft.urgency))
    && forall k :: 0 <= k < |a.issues| ==> WellFormedIssue(a.issues[k])
  }

  lemma InitInv()
    ensures Inv(Init)
    ensures Init.view == DashboardView && Init.images == [] && Init.issues == []
    ensures Init.department == DepartmentTabs.DefaultDepartment && Init.pane == Closed
  {
    DepartmentTabs.CatalogShape();
  }

  lemma StepPreservesInv(a: App, e: Event)
    requires Inv(a)
    ensures Inv(Step(a, e))
  {
    DepartmentTabs.CatalogShape();
    if SubmitFires(a, e) {
      var b := Step(a, e);
      assert WellFormedIssue(b.issues[0]);
      assert b.issues[1..] == a.issues;
    }
  }

  lemma {:induction false} RunPreservesInv(a: App, es: seq<Event>)
    requires Inv(a)
    ensures Inv(Run(a, es))
    decreases |es|
  {
    if |es| > 0 {
      StepPreservesInv(a, es[0]);
      RunPreservesInv(Step(a, es[0]), es[1..]);
    }
  }

  /** The issue an event adds to the store, as stored. */
  function Submitted(a: App, e: Event): (r: seq<Issue>)
    ensures |r| <= 1
    ensures forall k :: 0 <= k < |r| ==> r[k].status == "submitted"
  {
    if SubmitFires(a, e) then [Outgoing(a, e.now, e.timestamp).(status := "submitted")] else []
  }

  /** Only a submit that fires changes the store, by prepending the issue
      it submits. */
  lemma StepStore(a: App, e: Event)
    ensures Step(a, e).issues == Submitted(a, e) + a.issues
  {
    match e
    case Show(mode) =>
    case PickDepartment(tab) =>
    case AddFiles(files, draw) =>
    case RemoveImage(index) =>
    case Edit(input, value) =>
    case PickUrgency(level) =>
    case Submit(now, timestamp) =>
  }

  /** The issues a run of events submits, oldest first. */
  function Submissions(a: App, es: seq<Event>): (subs: seq<Issue>)
    ensures forall k :: 0 <= k < |subs| ==> subs[k].status == "submitted"
    decreases |es|
  {
    if |es| == 0 then [] else Submitted(a, es[0]) + Submissions(Step(a, es[0]), es[1..])
  }

  /** The store only grows by prepending: after a run it holds the run's
      submissions newest first, in front of what it held before. */
  lemma {:induction false} RunStore(a: App, es: seq<Event>)
    ensures Run(a, es).issues == Reverse(Submissions(a, es)) + a.issues
    decreases |es|
  {
    if |es| > 0 {
      var b := Step(a, es[0]);
      var first := Submitted(a, es[0]);
      var rest := Submissions(b, es[1..]);
      assert Submissions(a, es) == first + rest;
      assert Run(a, es) == Run(b, es[1..]);
      RunStore(b, es[1..]);
      StepStore(a, es[0]);
      ReverseConcat(first, rest);
      SingletonReverse(first);
      var rr := Reverse(rest);
      assert Reverse(first + rest) == rr + first;
      ConcatAssoc(rr, first, a.issues);
    }
  }

  /** After any run from the initial state with `n` submissions the
      dashboard counts `n` issues, all submitted, and previews the last
      `min(5, n)` submissions, newest first. */
  lemma DashboardAfterRun(es: seq<Event>)
    ensures var subs := Submissions(Init, es);
      var n := |subs|;
      var store := Run(Init, es).issues;
      && Dashboard.ComputeStats(store) == Dashboard.Stats(n, n, 0, 0)
      && Dashboard.Preview(store) == Reverse(subs[n - Js.Min(5, n)..])
  {
    var subs := Submissions(Init, es);
    RunStore(Init, es);
    assert Run(Init, es).issues == Reverse(subs);
    Dashboard.AllSubmittedStats(Reverse(subs));
    ReversePrefix(subs, Js.Min(5, |subs|));
  }

  lemma {:induction false} RunAppend(a: App, xs: seq<Event>, ys: seq<Event>)
    ensures Run(a, xs + ys) == Run(Run(a, xs), ys)
    decreases |xs|
  {
    if |xs| > 0 {
      assert (xs + ys)[0] == xs[0];
      assert (xs + ys)[1..] == xs[1..] + ys;
      assert Run(a, xs + ys) == Run(Step(a, xs[0]), xs[1..] + ys);
      assert Run(a, xs) == Run(Step(a, xs[0]), xs[1..]);
      RunAppend(Step(a, xs[0]), xs[1..], ys);
    } else {
      assert xs + ys == ys;
    }
  }

  lemma RunFour(a: App, es: seq<Event>)
    requires |es| == 4
    ensures Run(a, es) == Step(Step(Step(Step(a, es[0]), es[1]), es[2]), es[3])
  {
    var a1 := Step(a, es[0]);
    var a2 := Step(a1, es[1]);
    var a3 := Step(a2, es[2]);
    assert Run(a, es) == Run(a1, es[1..]);
    assert es[1..][0] == es[1] && es[1..][1..] == es[2..];
    assert Run(a1, es[1..]) == Run(a2, es[2..]);
    assert es[2..][0] == es[2] && es[2..][1..] == es[3..];
    assert Run(a2, es[2..]) == Run(a3, es[3..]);
    assert es[3..][0] == es[3] && |es[3..][1..]| == 0;
    assert Run(a3, es[3..]) == Run(Step(a3, es[3]), es[3..][1..]);
  }

  /** Open the report view, upload `f`, go to the dashboard and come back. */
  function Reentry(f: File, draw: nat -> ImageUpload.Draw): seq<Event> {
    [Show(ReportView), AddFiles([f], draw), Show(DashboardView), Show(ReportView)]
  }

  /** Fill in the three required fields and submit. */
  function FillAndSubmit(now: nat, timestamp: string): seq<Event> {
    [Edit(TitleInput, "t"), Edit(DescriptionInput, "d"), Edit(LocationInput, "l"), Submit(now, timestamp)]
  }

  /** Images outlive the report subtree: upload an image, go to the
      dashboard and back, and the upload panel is empty while the page
      still holds the image, which the next submit attaches to the issue. */
  lemma ImagesOutliveReportPane(f: File, draw: nat -> ImageUpload.Draw, now: nat, timestamp: string)
    requires ImageUpload.IsImage(f)
    ensures var a := Run(Init, Reentry(f, draw));
      a.pane.Open? && a.pane.intake.images == [] && a.images == [f]
    ensures var b := Run(Init, Reentry(f, draw) + FillAndSubmit(now, timestamp));
      |b.issues| == 1 && b.issues[0].images == [f]
  {
    var es := Reentry(f, draw);
    var a1 := Step(Init, es[0]);
    var a2 := Step(a1, es[1]);
    assert ImageUpload.Accepted([f]) == [f];
    assert a2.images == [f];
    var a3 := Step(a2, es[2]);
    var a4 := Step(a3, es[3]);
    assert a4.pane.intake.images == [] && a4.images == [f];
    RunFour(Init, es);
    var ts := FillAndSubmit(now, timestamp);
    var a5 := Step(a4, ts[0]);
    var a6 := Step(a5, ts[1]);
    var a7 := Step(a6, ts[2]);
    var a8 := Step(a7, ts[3]);
    assert IssueForm.SubmitEnabled(a7.pane.draft);
    assert a8.issues[0].images == [f];
    RunFour(a4, ts);
    RunAppend(Init, es, ts);
  }

  /** Report "Broken streetlight" for the power department at "MG Road"
      with high urgency and no images, then look at the dashboard. */
  function StreetlightReport(now: nat, timestamp: string): seq<Event> {
    [Show(ReportView), PickDepartment(2), Edit(TitleInput, "Broken streetlight"),
     Edit(DescriptionInput, "Lamp out for a week"), Edit(LocationInput, "MG Road"),
     PickUrgency(IssueForm.High), Submit(now, timestamp), Show(DashboardView)]
  }

  /** The stored issue is submitted, high urgency, for "power", without
      images, and the dashboard counts one submitted issue. */
  lemma StreetlightScenario(now: nat, timestamp: string)
    ensures var b := Run(Init, StreetlightReport(now, timestamp));
      && |b.issues| == 1
      && b.issues[0].title == "Broken streetlight" && b.issues[0].location == "MG Road"
      && b.issues[0].department == "power" && b.issues[0].urgency == "high"
      && b.issues[0].status == "submitted" && b.issues[0].images == []
      && Dashboard.ComputeStats(b.issues) == Dashboard.Stats(1, 1, 0, 0)
  {
    var es := StreetlightReport(now, timestamp);
    var front, back := es[..4], es[4..];
    assert es == front + back;
    RunAppend(Init, front, back);
    RunFour(Init, front);
    var a1 := Step(Init, es[0]);
    assert a1.pane == FreshPane && a1.images == [] && a1.issues == [];
    var a2 := Step(a1, es[1]);
    assert a2.department == "power" && a2.pane == a1.pane && a2.issues == [];
    var a3 := Step(a2, es[2]);
    var a := Step(a3, es[3]);
    assert a.department == "power" && a.images == [] && a.issues == [] && a.pane.Open?;
    assert a.pane.draft.title == "Broken streetlight" && a.pane.draft.description == "Lamp out for a week";
    RunFour(a, back);
    var a5 := Step(a, es[4]);
    var a6 := Step(a5, es[5]);
    assert a6.pane.Open? && IssueForm.SubmitEnabled(a6.pane.draft) && a6.department == "power";
    var a7 := Step(a6, es[6]);
    assert a7.issues[0].department == "power" && a7.issues[1..] == [];
    var b := Step(a7, es[7]);
    assert b.issues == a7.issues;
    Dashboard.AllSubmittedStats(b.issues);
  }
}
